=== FILE: README.md ===
# events-splitter reconciliation, modelled in Dafny

The events-splitter harness checks that an event splitter delivers every
event an Agent produced to exactly one of two Targets. It reads the three
log files line by line into arrays of `[source, line]` pairs. It bulk-loads
Target2 ++ Agent ++ Target1 into an SQLite `events` table, in INSERT
statements of at most 16383 records each. Then it runs four checks:

- count parity on the arrays;
- cross-target overlap (`INTERSECT`);
- Agent coverage (`EXCEPT`);
- no spurious target data (`EXCEPT`).

The model is functional. Files are sequences of lines. The table is the
sequence of rows the statements insert. Each check returns a verdict value.

| file | module | what it holds |
|---|---|---|
| `seqs.dfy` | `Seqs` | concatenation of parts, the set of values of a sequence, distinctness |
| `events.dfy` | `Events` | `Source`, `Event`, the source name stored in the table |
| `ingestion.dfy` | `Ingestion` | `fileToArray`: tagging lines, the appending loop |
| `chunking.dfy` | `Chunking` | concatenation order, JavaScript `slice`, the chunking loop and its reference definition |
| `statement.dfy` | `Statement` | placeholders, the flattened parameter list, SQLite's binding of parameters to rows |
| `store.dfy` | `Store` | inserting the chunks in order, and what happens to a refused chunk |
| `reconciliation.dfy` | `Reconciliation` | the four checks, the whole run, and what passing means |

The chunk size is a parameter `b >= 1`. The harness uses `Chunking.ChunkSize` (16383).

## Model

| member | source | states |
|---|---|---|
| `Ingestion.FileToArray` | test/test.js:33-48 | reading a file into an array leaves the old contents in place and appends one `[source, line]` per line, in file order (the loop is checked against `Tag`) |
| `Ingestion.TagAt` | test/test.js:39-41 | entry `i` of the tagged array is line `i` of the file under the file's tag |
| `Ingestion.TagDataRoundTrip` | test/test.js:39-41 | the `data` column of the tagged array is exactly the file's lines |
| `Ingestion.TagAppend` | test/test.js:39-41 | reading a file in two pieces gives the same array as reading it whole |
| `Chunking.Combine` | test/test.js:121 | the combined array is Target2, then Agent, then Target1; its length is the sum and its multiset the union of the three |
| `Chunking.Slice` | test/test.js:126 | `slice(start, end)` clamps both bounds to the length, and a bound past the end gives what remains or nothing |
| `Chunking.ChunkLoop` | test/test.js:125-127 | the `i += 16383` loop hands out exactly the reference chunks: they concatenate back to the input, each has 1 to `b` records, and there are ceil(N/b) of them |
| `Chunking.ChunkAt` | test/test.js:125-126 | chunk `j` is `slice(j*b, b + j*b)` of the combined array |
| `Chunking.ChunksPartition` | test/test.js:125-127 | flattening the chunks gives back the combined array: nothing is lost, repeated or reordered |
| `Chunking.ChunksBounded` | test/test.js:125-127 | every chunk is non-empty and holds at most `b` records |
| `Chunking.ChunksFull` | test/test.js:125-127 | every chunk but the last holds exactly `b` records |
| `Chunking.ChunksCount` | test/test.js:125-127 | there are exactly ceil(N/b) chunks, and none exactly when N = 0 |
| `Statement.ParamsLayout` | test/test.js:61 | `arr.flat()` has 2k entries: entry 2i is record i's source name, entry 2i+1 its line |
| `Statement.PlaceholderMarkers` | test/test.js:54 | the placeholder list for k records has exactly k `(?, ?)` groups and 2k `?` markers |
| `Statement.StatementMarkers` | test/test.js:55 | the INSERT statement for k records has exactly 2k `?` markers |
| `Statement.PairsParams` | test/test.js:54-61 | binding the flattened parameters to the groups in order recovers exactly the chunk's rows |
| `Statement.InsertChunkRows` | test/test.js:50-61 | a chunk of 1 to 16383 records binds at most 32766 parameters and inserts exactly its own rows, in order |
| `Statement.InsertChunkTooLarge` | test/test.js:119-120 | a chunk whose parameters exceed SQLITE_MAX_VARIABLE_NUMBER is refused |
| `Statement.InsertChunkEmpty` | test/test.js:54-55 | an empty chunk gives `INSERT ... VALUES ` with no group after it, which is refused as incomplete |
| `Store.InsertChunkOutcome` | test/test.js:50-61 | a chunk that fits (1 to 16383 records) is inserted as its own rows; any other chunk is refused, as incomplete when empty and for too many variables otherwise |
| `Store.LoadAllFit` | test/test.js:125-127 | when every chunk fits, the table ends with the rows of all chunks, in order, after what it held before, and no chunk is refused |
| `Store.LoadSkipsMisfits` | test/test.js:125-127 | the load goes on past a refused chunk: the table gains the rows of exactly the chunks that fit, in order, and chunk k is reported refused, with its cause, iff it does not fit; every reported refusal names one of the chunks |
| `Store.LaterChunkCommittedAfterRefusal` | test/test.js:125-127 | after an oversized first chunk is refused, the next chunk's row is still inserted |
| `Store.BulkLoadStore` | test/test.js:121-127 | for every chunk size from 1 to 16383 the table ends as Target2 ++ Agent ++ Target1 and ceil(N/b) statements are issued, none refused |
| `Store.BulkLoadOverLimit` | test/test.js:119-120 | with any chunk size above 16383, a load of more than 16383 records has its first statement refused, and the refusal is recorded while the load goes on; the table holds only the rows of the chunks that fit, so 16383 is the largest chunk size that works |
| `Reconciliation.CountParity` | test/test.js:136-144 | the parity check passes iff the Agent array is as long as the two Target arrays together, and a failure reports the Agent's count and the two Targets' combined count |
| `Reconciliation.RowsCheck` | test/test.js:157-164 | a query check passes iff the query returned no rows; a failure reports exactly those rows |
| `Reconciliation.SelectedTagged` | test/test.js:173 | selecting the `data` column by source name from one file's rows gives that file's distinct lines, or nothing |
| `Reconciliation.ParityOfTagged` | test/test.js:136-137 | parity over the tagged arrays equals parity over the files' line counts, duplicates included |
| `Reconciliation.ChecksOnStoredTable` | test/test.js:132-208 | on the loaded table, overlap is Target1 ∩ Target2, coverage is Agent − (Target1 ∪ Target2), and spurious data is (Target1 ∪ Target2) − Agent, over distinct lines |
| `Reconciliation.RunComputesExpected` | test/test.js:88-211 | for every chunk size from 1 to 16383 no statement is refused and the run reports exactly the expected counts and sets |
| `Reconciliation.ChunkSizeIrrelevant` | test/test.js:125-127 | two runs that differ only in chunk size report the same |
| `Reconciliation.RerunOverStaleTable` | test/test.js:107-111 | a second run over the same files appends a second copy of the rows, and the report is unchanged |
| `Reconciliation.ExactlyOncePasses` | test/test.js:132-208 | with distinct Agent lines, a split whose Target lines together are exactly the Agent's lines (as a multiset) passes all four checks |
| `Reconciliation.PassingMeansExactlyOnce` | test/test.js:132-208 | if the Agent's lines are distinct, passing all four checks means the Target lines together are exactly the Agent's lines and the two Targets share no line |
| `Reconciliation.RepeatedLineTripsOverlap` | test/test.js:152-164 | a split that sends each copy of a repeated Agent line to a different Target is exactly-once, yet fails the overlap check |
| `Reconciliation.DuplicatesEscapeChecks` | test/test.js:136-207 | without distinct Agent lines, all four checks can pass on a split that duplicated a line |
| `Reconciliation.ParityExample` | test/test.js:136-144 | Agent with 3 lines and Targets with 1 each fails parity reporting 3 and 2 |
| `Reconciliation.OverlapExample` | test/test.js:152-164 | Target1 = {a, b} and Target2 = {b, c} fails the overlap check reporting exactly {b} |
| `Reconciliation.CoverageExample` | test/test.js:173-186 | Agent = {a, b, c} with Targets {a} and {b} fails coverage reporting exactly {c} |
| `Reconciliation.SpuriousExample` | test/test.js:195-207 | Target1 = {a, x} with Agent = {a, b} fails the spurious-data check reporting exactly {x} |

## Left out

- File opening and `readline` streaming (test/test.js:33-37). These are I/O. A file is given as the sequence of its lines.
- The `console.log` of each file's record count (test/test.js:44), the insert timing output (test/test.js:122-128), the Docker client and the mocha timeouts. These are harness and environment concerns.
- SQLite itself. `Statement.Execute` models only what the loader relies on: the statement is refused when it has more than 32766 markers, and each `(?, ?)` group becomes one row. A statement with no marker at all is refused as incomplete. For the statements built here, that is exactly the empty `VALUES` list of an empty chunk, which SQLite rejects as a syntax error; the chunking loop never builds one (`Chunking.ChunksBounded`). It also refuses any mismatch between markers and parameters. That is stricter than SQLite, which binds NULL to markers that get no parameter. The loader never produces such a mismatch (`Statement.StatementMarkers`, `Statement.ParamsLayout`).
- The `begin transaction`/`commit` pair and the Promise and callback plumbing of `arrayToDb` (test/test.js:57-70). Each chunk is modelled as atomic. The INSERT runs without a callback and no error handler is installed. The commit callback reads its error from the second parameter `(res, err)`, but node-sqlite3 passes it first, so `arrayToDb` never rejects. A refused chunk therefore adds no rows and the `for` loop goes on, which is what `Store.LoadFrom` models; it records the refused chunk's index and cause in `LoadResult.refused`. In the harness the refusal surfaces differently: node-sqlite3 emits it as an `'error'` event on the statement, which has no listener, so it becomes an uncaught error. Mocha charges that error to the running `before` hook (test/test.js:115-130), the hook fails, and the four checks are skipped. The model does not represent the skipped checks. `Reconciliation.Run` evaluates the checks on whatever table the load left. It is claimed only for chunk sizes from 1 to 16383, where `Store.BulkLoadStore` proves that nothing is refused.
- Table creation, and the database file's life across runs (test/test.js:11, 107-111). The table is assumed to start empty. `Reconciliation.RerunOverStaleTable` covers a second run over identical files; stale rows from different earlier inputs are not modelled. The database file is never emptied (the `DELETE` at test/test.js:109 is commented out), so an earlier run's Target rows can hide a line lost in this run and let coverage pass, or raise a false overlap when an event was routed differently before. The table's schema is not part of test/test.js; the model takes `source` and `data` to hold text compared exactly (binary collation, no numeric affinity).
- `logFailedTest` (test/test.js:74-86) and the error-message and file-name strings (test/test.js:139-142, 157-161, 179-183, 200-204). These are file I/O and cosmetic formatting. A failed verdict carries the counts or the offending rows that would be written.
- The order of rows returned by `INTERSECT`/`EXCEPT`. SQL leaves it unspecified, so query results are sets, and `rows.length` is their size.
- Duplicate detection within one source. The harness has no such check. `Reconciliation.DuplicatesEscapeChecks` shows what it would catch.
- The spurious-data check follows the code. It pools both Targets and subtracts the Agent's lines. It is not a per-Target check, so a failure does not say which Target held the line.
- JavaScript numbers: counts and indices are unbounded integers. The harness's inputs stay far below 2^53.

=== FILE: chunking.dfy ===
/**
 The chunked bulk load: the three tagged arrays are concatenated as
 Target2 ++ Agent ++ Target1 and the result is cut into contiguous slices of
 at most `b` records, each of which becomes one INSERT statement.
 */
module Chunking {
  import opened Seqs
  import opened Events

  /** Records per INSERT statement: half of SQLite's SQLITE_MAX_VARIABLE_NUMBER (32766). */
  const ChunkSize: nat := 16383

  /** `[...target2Events, ...agentEvents, ...target1Events]`. */
  function Combine(agent: seq<Event>, target1: seq<Event>, target2: seq<Event>): (r: seq<Event>)
    ensures |r| == |target2| + |agent| + |target1|
    ensures multiset(r) == multiset(agent) + multiset(target1) + multiset(target2)
    ensures r[..|target2|] == target2
    ensures r[|target2|..|target2| + |agent|] == agent
    ensures r[|target2| + |agent|..] == target1
  {
    target2 + agent + target1
  }

  /**
   JavaScript's `Array.prototype.slice(start, end)` for non-negative
   arguments: both bounds are clamped to the length, and an empty range gives
   an empty array.
   */
  function Slice<T>(s: seq<T>, start: nat, end: nat): (r: seq<T>)
    ensures |r| <= |s|
    ensures start <= end <= |s| ==> r == s[start..end]
    ensures start <= |s| <= end ==> r == s[start..]
    ensures |s| <= start ==> r == []
    ensures end <= start ==> r == []
  {
    var lo := Min(start, |s|);
    var hi := Min(end, |s|);
    if lo <= hi then s[lo..hi] else []
  }

  /** Reference definition of the chunking: the first `b` records, then the chunks of the rest. */
  function Chunks<T>(s: seq<T>, b: nat): seq<seq<T>>
    requires b >= 1
    decreases |s|
  {
    if |s| == 0 then [] else
      var n := Min(b, |s|);
      [s[..n]] + Chunks(s[n..], b)
  }

  /** ceil(n / b). */
  function CeilDiv(n: nat, b: nat): nat
    requires b >= 1
  {
    (n + b - 1) / b
  }

  /**
   The loop `for (i = 0; i < s.length; i += b) arrayToDb(s.slice(i, b + i))`,
   collecting the slices it hands to the loader.
   */
  method ChunkLoop<T>(s: seq<T>, b: nat) returns (chunks: seq<seq<T>>)
    requires b >= 1
    ensures chunks == Chunks(s, b)
    ensures Flatten(chunks) == s
    ensures forall j :: 0 <= j < |chunks| ==> 1 <= |chunks[j]| <= b
    ensures |chunks| == CeilDiv(|s|, b)
  {
    chunks := [];
    var i := 0;
    while i < |s|
      invariant i <= |s| ==> chunks + Chunks(s[i..], b) == Chunks(s, b)
      invariant i > |s| ==> chunks == Chunks(s, b)
    {
      var next := Slice(s, i, b + i);
      ChunksStep(s, b, i);
      ghost var before := chunks;
      chunks := chunks + [next];
      assert chunks + Chunks(s[Min(b + i, |s|)..], b) == before + Chunks(s[i..], b);
      i := i + b;
    }
    if i == |s| {
      assert s[i..] == [];
    }
    ChunksFacts(s, b);
  }

  lemma {:induction false} ChunksFacts<T>(s: seq<T>, b: nat)
    requires b >= 1
    ensures Flatten(Chunks(s, b)) == s
    ensures forall j :: 0 <= j < |Chunks(s, b)| ==> 1 <= |Chunks(s, b)[j]| <= b
    ensures |Chunks(s, b)| == CeilDiv(|s|, b)
  {
    ChunksPartition(s, b);
    ChunksBounded(s, b);
    ChunksCount(s, b);
  }

  /** One pass of the loop peels off the first chunk of what remains. */
  lemma {:induction false} ChunksStep<T>(s: seq<T>, b: nat, i: nat)
    requires b >= 1 && i < |s|
    ensures Chunks(s[i..], b) == [Slice(s, i, b + i)] + Chunks(s[Min(b + i, |s|)..], b)
    ensures b + i > |s| ==> Chunks(s[Min(b + i, |s|)..], b) == []
  {
    var n := Min(b, |s| - i);
    assert s[i..][..n] == s[i..i + n];
    assert s[i..][n..] == s[i + n..];
  }

  lemma SliceShift<T>(s: seq<T>, n: nat, start: nat, end: nat)
    requires n <= |s|
    ensures Slice(s[n..], start, end) == Slice(s, start + n, end + n)
  {
  }

  /** Chunk `j` is the slice the loop takes on its `j`-th pass: `s.slice(j * b, b + j * b)`. */
  lemma {:induction false} ChunkAt<T>(s: seq<T>, b: nat, j: nat)
    requires b >= 1
    requires j < |Chunks(s, b)|
    ensures Chunks(s, b)[j] == Slice(s, j * b, b + j * b)
  {
    MulIsProduct(j, b);
    ChunkFrom(s, b, j, Mul(j, b));
  }

  /** `j * b` as `j` repeated additions: the loop's `i` after `j` passes. */
  function Mul(j: nat, b: nat): nat
  {
    if j == 0 then 0 else b + Mul(j - 1, b)
  }

  lemma {:induction false} MulIsProduct(j: nat, b: nat)
    ensures Mul(j, b) == j * b
  {
    if j > 0 {
      MulIsProduct(j - 1, b);
      assert (j - 1) * b + b == j * b;
    }
  }

  lemma {:induction false} ChunkFrom<T>(s: seq<T>, b: nat, j: nat, start: nat)
    requires b >= 1
    requires j < |Chunks(s, b)|
    requires start == Mul(j, b)
    ensures Chunks(s, b)[j] == Slice(s, start, b + start)
  {
    if j > 0 {
      assert |s| > b;
      var rest := s[b..];
      assert Chunks(s, b)[j] == Chunks(rest, b)[j - 1];
      ChunkFrom(rest, b, j - 1, start - b);
      SliceShift(s, b, start - b, start);
    }
  }

  /** The chunks concatenate back to the input: nothing is lost, repeated or reordered. */
  lemma {:induction false} ChunksPartition<T>(s: seq<T>, b: nat)
    requires b >= 1
    ensures Flatten(Chunks(s, b)) == s
  {
    if |s| > 0 {
      var n := Min(b, |s|);
      ChunksPartition(s[n..], b);
      assert s == s[..n] + s[n..];
    }
  }

  /** Every chunk is non-empty and holds at most `b` records. */
  lemma {:induction false} ChunksBounded<T>(s: seq<T>, b: nat)
    requires b >= 1
    ensures forall j :: 0 <= j < |Chunks(s, b)| ==> 1 <= |Chunks(s, b)[j]| <= b
  {
    if |s| > 0 {
      var n := Min(b, |s|);
      ChunksBounded(s[n..], b);
      var c := Chunks(s, b);
      assert c == [s[..n]] + Chunks(s[n..], b);
      forall j | 0 <= j < |c|
        ensures 1 <= |c[j]| <= b
      {
        if j > 0 {
          assert c[j] == Chunks(s[n..], b)[j - 1];
        }
      }
    }
  }

  /** Every chunk but the last is full. */
  lemma {:induction false} ChunksFull<T>(s: seq<T>, b: nat)
    requires b >= 1
    ensures forall j :: 0 <= j < |Chunks(s, b)| - 1 ==> |Chunks(s, b)[j]| == b
  {
    if |s| > 0 {
      var n := Min(b, |s|);
      ChunksFull(s[n..], b);
      var c := Chunks(s, b);
      assert c == [s[..n]] + Chunks(s[n..], b);
      forall j | 0 <= j < |c| - 1
        ensures |c[j]| == b
      {
        if j > 0 {
          assert c[j] == Chunks(s[n..], b)[j - 1];
        } else {
          assert |Chunks(s[n..], b)| > 0;
        }
      }
    }
  }

  lemma MulMono(x: nat, y: nat, b: nat)
    requires x <= y
    ensures x * b <= y * b
  {
  }

  /** Integer division is determined by the bracketing multiples. */
  lemma DivUnique(m: nat, b: nat, q: nat)
    requires b >= 1
    requires q * b <= m < q * b + b
    ensures m / b == q
  {
    var r := m / b;
    assert m == r * b + m % b;
    if r < q {
      MulMono(r + 1, q, b);
    } else if r > q {
      MulMono(q + 1, r, b);
    }
  }

  lemma CeilDivStep(n: nat, b: nat)
    requires b >= 1 && n > b
    ensures CeilDiv(n, b) == 1 + CeilDiv(n - b, b)
  {
    var q := CeilDiv(n - b, b);
    var m := n - b + b - 1;
    assert q * b <= m < q * b + b by {
      assert m == q * b + m % b;
    }
    assert (q + 1) * b == q * b + b;
    DivUnique(n + b - 1, b, q + 1);
  }

  lemma CeilDivOne(n: nat, b: nat)
    requires 1 <= n <= b
    ensures CeilDiv(n, b) == 1
  {
    DivUnique(n + b - 1, b, 1);
  }

  lemma CeilDivZero(b: nat)
    requires b >= 1
    ensures CeilDiv(0, b) == 0
  {
    DivUnique(b - 1, b, 0);
  }

  /** There are exactly ceil(N / b) chunks, and none when N = 0. */
  lemma {:induction false} ChunksCount<T>(s: seq<T>, b: nat)
    requires b >= 1
    ensures |Chunks(s, b)| == CeilDiv(|s|, b)
    ensures |s| == 0 <==> |Chunks(s, b)| == 0
  {
    if |s| == 0 {
      CeilDivZero(b);
    } else if |s| <= b {
      CeilDivOne(|s|, b);
      assert s[|s|..] == [];
      assert |Chunks(s, b)| == 1;
    } else {
      ChunksCount(s[b..], b);
      CeilDivStep(|s|, b);
      assert |Chunks(s, b)| == 1 + |Chunks(s[b..], b)|;
    }
  }
}

=== FILE: events.dfy ===
/**
 The records the splitter harness works with: every line read from one of
 the three log files becomes a `[source, line]` pair.
 */
module Events {

  /** The three producers of log files: the Agent and its two Targets. */
  datatype Source = Agent | Target1 | Target2

  /** One ingested line, tagged with the file it came from. */
  datatype Event = Event(source: Source, data: string)

  /** The text stored in the `source` column for each tag. */
  function SourceName(s: Source): string
  {
    match s
    case Agent => "Agent"
    case Target1 => "Target1"
    case Target2 => "Target2"
  }

  /** The `data` column of a sequence of events. */
  function DataOf(events: seq<Event>): (r: seq<string>)
    ensures |r| == |events|
  {
    if |events| == 0 then [] else [events[0].data] + DataOf(events[1..])
  }
}

=== FILE: ingestion.dfy ===
/**
 The line ingestor (`fileToArray`): each line of a log file is pushed onto an
 array as a `[source, line]` pair, in file order. Opening and streaming the
 file are left out; the file is given as the sequence of its lines.
 */
module Ingestion {
  import opened Events

  /** The events produced by reading `lines` under tag `src`. */
  function Tag(lines: seq<string>, src: Source): (r: seq<Event>)
    ensures |r| == |lines|
  {
    if |lines| == 0 then [] else [Event(src, lines[0])] + Tag(lines[1..], src)
  }

  /** Element `i` of the tagged array is line `i` of the file, tagged `src`. */
  lemma {:induction false} TagAt(lines: seq<string>, src: Source, i: nat)
    requires i < |lines|
    ensures Tag(lines, src)[i] == Event(src, lines[i])
  {
    if i > 0 {
      TagAt(lines[1..], src, i - 1);
    }
  }

  /**
   One pass of the line reader: every `line` event appends `[src, line]` to
   `arr`, so the array ends up as its old contents followed by the tagged
   lines, in file order.
   */
  method FileToArray(arr: seq<Event>, lines: seq<string>, src: Source) returns (out: seq<Event>)
    ensures out == arr + Tag(lines, src)
  {
    out := arr;
    var k := 0;
    while k < |lines|
      invariant 0 <= k <= |lines|
      invariant out == arr + Tag(lines[..k], src)
    {
      ghost var done := Tag(lines[..k], src);
      TagAppend(lines[..k], [lines[k]], src);
      assert lines[..k + 1] == lines[..k] + [lines[k]];
      assert Tag(lines[..k + 1], src) == done + [Event(src, lines[k])];
      out := out + [Event(src, lines[k])];
      k := k + 1;
    }
    assert lines[..k] == lines;
  }

  /** Projecting the `data` column of the tagged events gives back the file's lines. */
  lemma {:induction false} TagDataRoundTrip(lines: seq<string>, src: Source)
    ensures DataOf(Tag(lines, src)) == lines
  {
    if |lines| > 0 {
      TagDataRoundTrip(lines[1..], src);
    }
  }

  /** Reading a file in two pieces gives the same events as reading it whole. */
  lemma {:induction false} TagAppend(a: seq<string>, b: seq<string>, src: Source)
    ensures Tag(a + b, src) == Tag(a, src) + Tag(b, src)
  {
    if |a| == 0 {
      assert a + b == b;
    } else {
      assert (a + b)[1..] == a[1..] + b;
      TagAppend(a[1..], b, src);
    }
  }
}

=== FILE: reconciliation.dfy ===
/**
 The four `it` checks of the harness and the whole run: ingest the three
 files, bulk-load the table, then evaluate every check without stopping at
 the first failure. The SQL queries are set expressions over the `data`
 column of the rows selected by source name (`INTERSECT` and `EXCEPT`
 return distinct rows).
 */
module Reconciliation {
  import opened Seqs
  import opened Events
  import opened Ingestion
  import opened Chunking
  import opened Statement
  import opened Store

  /** `SELECT data FROM events WHERE source IN (names)`, as a set of distinct values. */
  function Selected(table: seq<Row>, names: set<string>): set<string>
  {
    set r | r in table && r.source in names :: r.data
  }

  const TargetNames: set<string> := {"Target1", "Target2"}

  /** `... WHERE source = 'Target1' INTERSECT ... WHERE source = 'Target2'`. */
  function OverlapQuery(table: seq<Row>): set<string>
  {
    Selected(table, {"Target1"}) * Selected(table, {"Target2"})
  }

  /** `... WHERE source = 'Agent' EXCEPT ... WHERE source IN ('Target1', 'Target2')`. */
  function CoverageQuery(table: seq<Row>): set<string>
  {
    Selected(table, {"Agent"}) - Selected(table, TargetNames)
  }

  /** `... WHERE source IN ('Target1', 'Target2') EXCEPT ... WHERE source = 'Agent'`. */
  function SpuriousQuery(table: seq<Row>): set<string>
  {
    Selected(table, TargetNames) - Selected(table, {"Agent"})
  }

  /** The count-parity check passes, or fails reporting both counts. */
  datatype ParityVerdict = ParityPass | ParityFail(agentCount: nat, targetCount: nat)

  /** A query check passes, or fails reporting the rows the query returned. */
  datatype QueryVerdict = QueryPass | QueryFail(rows: set<string>)

  /** The count-parity check compares array lengths, so duplicate lines count. */
  function CountParity(agent: seq<Event>, target1: seq<Event>, target2: seq<Event>): (v: ParityVerdict)
    ensures v.ParityPass? <==> |agent| == |target1| + |target2|
    ensures v.ParityFail? ==> v.agentCount == |agent| && v.targetCount == |target1| + |target2|
  {
    var agentCount := |agent|;
    var targetCount := |target1| + |target2|;
    if agentCount != targetCount then ParityFail(agentCount, targetCount) else ParityPass
  }

  /** A query check fails, reporting the rows, exactly when the query returned any. */
  function RowsCheck(rows: set<string>): (v: QueryVerdict)
    ensures v.QueryPass? <==> rows == {}
    ensures v.QueryFail? ==> v.rows == rows && |v.rows| > 0
  {
    if |rows| > 0 then QueryFail(rows) else QueryPass
  }

  /** One verdict per `it` block; each is computed regardless of the others. */
  datatype Report = Report(
    parity: ParityVerdict,
    overlap: QueryVerdict,
    coverage: QueryVerdict,
    spurious: QueryVerdict)

  predicate AllPass(r: Report)
  {
    r.parity.ParityPass? && r.overlap.QueryPass? && r.coverage.QueryPass? && r.spurious.QueryPass?
  }

  function RunChecks(agent: seq<Event>, target1: seq<Event>, target2: seq<Event>, table: seq<Row>): Report
  {
    Report(
      CountParity(agent, target1, target2),
      RowsCheck(OverlapQuery(table)),
      RowsCheck(CoverageQuery(table)),
      RowsCheck(SpuriousQuery(table)))
  }

  /**
   The harness from the three files' lines, with chunk size `b`. The checks
   are evaluated on whatever table the load left; in the harness a refused
   chunk instead fails the loading hook and the checks are skipped, so this
   is only a faithful account when no chunk is refused (1 <= b <= 16383).
   */
  function Run(agentLines: seq<string>, target1Lines: seq<string>, target2Lines: seq<string>, b: nat): Report
    requires b >= 1
  {
    var agent := Tag(agentLines, Agent);
    var target1 := Tag(target1Lines, Target1);
    var target2 := Tag(target2Lines, Target2);
    RunChecks(agent, target1, target2, BulkLoad(agent, target1, target2, b).table)
  }

  /** Parity judged on the number of lines each side holds. */
  function ExpectedParity(agentCount: nat, targetCount: nat): ParityVerdict
  {
    if agentCount == targetCount then ParityPass else ParityFail(agentCount, targetCount)
  }

  /**
   What the checks are meant to compute, stated directly on the files'
   lines: counts for parity, and set algebra on the distinct lines.
   */
  function Expected(agentLines: seq<string>, target1Lines: seq<string>, target2Lines: seq<string>): Report
  {
    var a := Elems(agentLines);
    var t1 := Elems(target1Lines);
    var t2 := Elems(target2Lines);
    Report(
      ExpectedParity(|agentLines|, |target1Lines| + |target2Lines|),
      RowsCheck(t1 * t2),
      RowsCheck(a - (t1 + t2)),
      RowsCheck((t1 + t2) - a))
  }

  lemma SelectedAppend(a: seq<Row>, b: seq<Row>, names: set<string>)
    ensures Selected(a + b, names) == Selected(a, names) + Selected(b, names)
  {
  }

  /** Selecting by name from one file's rows gives that file's distinct lines, or nothing. */
  lemma {:induction false} SelectedTagged(lines: seq<string>, src: Source, names: set<string>)
    ensures Selected(ToRows(Tag(lines, src)), names) == if SourceName(src) in names then Elems(lines) else {}
  {
    if |lines| > 0 {
      SelectedTagged(lines[1..], src, names);
      var rest := ToRows(Tag(lines[1..], src));
      assert ToRows(Tag(lines, src)) == [Row(SourceName(src), lines[0])] + rest;
      SelectedAppend([Row(SourceName(src), lines[0])], rest, names);
      assert lines == [lines[0]] + lines[1..];
      assert Elems(lines) == {lines[0]} + Elems(lines[1..]);
    } else {
      assert ToRows(Tag(lines, src)) == [];
    }
  }

  /** The selections the queries make, on the table the bulk load builds. */
  lemma {:induction false} StoredSelections(agentLines: seq<string>, target1Lines: seq<string>, target2Lines: seq<string>, names: set<string>)
    ensures Selected(ToRows(Tag(target2Lines, Target2) + Tag(agentLines, Agent) + Tag(target1Lines, Target1)), names)
         == (if "Agent" in names then Elems(agentLines) else {})
          + (if "Target1" in names then Elems(target1Lines) else {})
          + (if "Target2" in names then Elems(target2Lines) else {})
  {
    var a := Tag(agentLines, Agent);
    var t1 := Tag(target1Lines, Target1);
    var t2 := Tag(target2Lines, Target2);
    ToRowsAppend(t2 + a, t1);
    ToRowsAppend(t2, a);
    SelectedAppend(ToRows(t2) + ToRows(a), ToRows(t1), names);
    SelectedAppend(ToRows(t2), ToRows(a), names);
    SelectedTagged(agentLines, Agent, names);
    SelectedTagged(target1Lines, Target1, names);
    SelectedTagged(target2Lines, Target2, names);
  }

  lemma ParityOfCounts(agent: seq<Event>, target1: seq<Event>, target2: seq<Event>, agentCount: nat, targetCount: nat)
    requires |agent| == agentCount && |target1| + |target2| == targetCount
    ensures CountParity(agent, target1, target2) == ExpectedParity(agentCount, targetCount)
  {
  }

  /** Parity of the tagged arrays is parity of the files' line counts. */
  lemma {:induction false} ParityOfTagged(agentLines: seq<string>, target1Lines: seq<string>, target2Lines: seq<string>)
    ensures CountParity(Tag(agentLines, Agent), Tag(target1Lines, Target1), Tag(target2Lines, Target2))
         == ExpectedParity(|agentLines|, |target1Lines| + |target2Lines|)
  {
    ParityOfCounts(Tag(agentLines, Agent), Tag(target1Lines, Target1), Tag(target2Lines, Target2),
                   |agentLines|, |target1Lines| + |target2Lines|);
  }

  /** On the table holding Target2 ++ Agent ++ Target1, the checks compute the expected report. */
  lemma {:induction false} ChecksOnStoredTable(agentLines: seq<string>, target1Lines: seq<string>, target2Lines: seq<string>)
    ensures RunChecks(Tag(agentLines, Agent), Tag(target1Lines, Target1), Tag(target2Lines, Target2),
                      ToRows(Tag(target2Lines, Target2) + Tag(agentLines, Agent) + Tag(target1Lines, Target1)))
         == Expected(agentLines, target1Lines, target2Lines)
  {
    var table := ToRows(Tag(target2Lines, Target2) + Tag(agentLines, Agent) + Tag(target1Lines, Target1));
    var a := Elems(agentLines);
    var t1 := Elems(target1Lines);
    var t2 := Elems(target2Lines);
    StoredSelections(agentLines, target1Lines, target2Lines, {"Target1"});
    assert Selected(table, {"Target1"}) == t1;
    StoredSelections(agentLines, target1Lines, target2Lines, {"Target2"});
    assert Selected(table, {"Target2"}) == t2;
    StoredSelections(agentLines, target1Lines, target2Lines, {"Agent"});
    assert Selected(table, {"Agent"}) == a;
    StoredSelections(agentLines, target1Lines, target2Lines, TargetNames);
    assert Selected(table, TargetNames) == t1 + t2;
    assert OverlapQuery(table) == t1 * t2;
    assert CoverageQuery(table) == a - (t1 + t2);
    assert SpuriousQuery(table) == (t1 + t2) - a;
    var expected := Expected(agentLines, target1Lines, target2Lines);
    var actual := RunChecks(Tag(agentLines, Agent), Tag(target1Lines, Target1), Tag(target2Lines, Target2), table);
    ParityOfTagged(agentLines, target1Lines, target2Lines);
    assert actual.overlap == expected.overlap;
    assert actual.coverage == expected.coverage;
    assert actual.spurious == expected.spurious;
  }

  /**
   For every chunk size from 1 to 16383 no statement is refused and the report is
   exactly the one computed on the lines: parity on counts, the three
   queries as set algebra on distinct lines.
   */
  lemma {:induction false} RunComputesExpected(agentLines: seq<string>, target1Lines: seq<string>, target2Lines: seq<string>, b: nat)
    requires 1 <= b <= ChunkSize
    ensures BulkLoad(Tag(agentLines, Agent), Tag(target1Lines, Target1), Tag(target2Lines, Target2), b).refused == []
    ensures Run(agentLines, target1Lines, target2Lines, b) == Expected(agentLines, target1Lines, target2Lines)
  {
    BulkLoadStore(Tag(agentLines, Agent), Tag(target1Lines, Target1), Tag(target2Lines, Target2), b);
    ChecksOnStoredTable(agentLines, target1Lines, target2Lines);
  }

  /**
   The table lives in a file that the harness never empties, so a second
   run appends to the rows of the first. When the inputs are unchanged the
   set queries cannot tell: the report over the doubled table is still the
   expected one.
   */
  lemma {:induction false} RerunOverStaleTable(agentLines: seq<string>, target1Lines: seq<string>, target2Lines: seq<string>, b: nat)
    requires 1 <= b <= ChunkSize
    ensures var agent := Tag(agentLines, Agent);
            var target1 := Tag(target1Lines, Target1);
            var target2 := Tag(target2Lines, Target2);
            var stale := ToRows(Combine(agent, target1, target2));
            LoadFrom(stale, Chunks(Combine(agent, target1, target2), b), 0) == LoadResult(stale + stale, [])
            && RunChecks(agent, target1, target2, stale + stale) == Expected(agentLines, target1Lines, target2Lines)
  {
    var agent := Tag(agentLines, Agent);
    var target1 := Tag(target1Lines, Target1);
    var target2 := Tag(target2Lines, Target2);
    var all := Combine(agent, target1, target2);
    var stale := ToRows(all);
    ChunksBounded(all, b);
    ChunksPartition(all, b);
    LoadAllFit(stale, Chunks(all, b), 0);
    forall names: set<string>
      ensures Selected(stale + stale, names) == Selected(stale, names)
    {
      SelectedAppend(stale, stale, names);
    }
    assert OverlapQuery(stale + stale) == OverlapQuery(stale);
    assert CoverageQuery(stale + stale) == CoverageQuery(stale);
    assert SpuriousQuery(stale + stale) == SpuriousQuery(stale);
    ChecksOnStoredTable(agentLines, target1Lines, target2Lines);
  }

  /** Two runs that differ only in chunk size (both within the limit) report the same. */
  lemma {:induction false} ChunkSizeIrrelevant(agentLines: seq<string>, target1Lines: seq<string>, target2Lines: seq<string>, b1: nat, b2: nat)
    requires 1 <= b1 <= ChunkSize && 1 <= b2 <= ChunkSize
    ensures Run(agentLines, target1Lines, target2Lines, b1) == Run(agentLines, target1Lines, target2Lines, b2)
  {
    RunComputesExpected(agentLines, target1Lines, target2Lines, b1);
    RunComputesExpected(agentLines, target1Lines, target2Lines, b2);
  }

  /**
   Every Agent line was delivered exactly once: between them the Targets
   hold each Agent line as many times as the Agent emitted it, and nothing
   else.
   */
  predicate ExactlyOnce(agentLines: seq<string>, target1Lines: seq<string>, target2Lines: seq<string>)
  {
    multiset(agentLines) == multiset(target1Lines) + multiset(target2Lines)
  }

  /** When the Agent's lines are distinct, a correct split passes all four checks. */
  lemma {:induction false} ExactlyOncePasses(agentLines: seq<string>, target1Lines: seq<string>, target2Lines: seq<string>)
    requires Distinct(agentLines)
    requires ExactlyOnce(agentLines, target1Lines, target2Lines)
    ensures AllPass(Expected(agentLines, target1Lines, target2Lines))
  {
    var m := multiset(agentLines);
    assert |agentLines| == |m| == |multiset(target1Lines)| + |multiset(target2Lines)|;
    var a := Elems(agentLines);
    var t1 := Elems(target1Lines);
    var t2 := Elems(target2Lines);
    forall x
      ensures x in a <==> x in t1 + t2
    {
      assert x in a <==> x in m;
      assert x in t1 <==> x in multiset(target1Lines);
      assert x in t2 <==> x in multiset(target2Lines);
    }
    assert a == t1 + t2;
    forall x | x in t1
      ensures x !in t2
    {
      DistinctMultiplicity(agentLines, x);
    }
    assert t1 * t2 == {};
  }

  /**
   When the Agent's file holds no line twice, passing all four checks means
   the split was exactly-once: the Targets hold each Agent line once between
   them, and nothing else.
   */
  lemma {:induction false} PassingMeansExactlyOnce(agentLines: seq<string>, target1Lines: seq<string>, target2Lines: seq<string>)
    requires Distinct(agentLines)
    requires AllPass(Expected(agentLines, target1Lines, target2Lines))
    ensures ExactlyOnce(agentLines, target1Lines, target2Lines)
    ensures Elems(target1Lines) !! Elems(target2Lines)
  {
    var a := Elems(agentLines);
    var t1 := Elems(target1Lines);
    var t2 := Elems(target2Lines);
    assert a == t1 + t2;
    assert t1 !! t2;
    assert |t1 + t2| == |t1| + |t2|;
    ElemsCard(agentLines);
    ElemsCard(target1Lines);
    ElemsCard(target2Lines);
    assert Distinct(target1Lines) && Distinct(target2Lines);
    var lhs := multiset(agentLines);
    var rhs := multiset(target1Lines) + multiset(target2Lines);
    forall x
      ensures lhs[x] == rhs[x]
    {
      DistinctMultiplicity(agentLines, x);
      DistinctMultiplicity(target1Lines, x);
      DistinctMultiplicity(target2Lines, x);
      assert x in agentLines <==> x in a;
    }
    assert lhs == rhs;
  }

  /**
   Without the Agent's lines being distinct the checks can pass on a wrong
   split: the Agent has "b" twice, Target1 delivers "a" twice and "b" once.
   Counts agree and the three queries are empty, but "a" was duplicated.
   */
  lemma DuplicatesEscapeChecks()
    ensures AllPass(Expected(["a", "b", "b"], ["a", "a", "b"], []))
    ensures !ExactlyOnce(["a", "b", "b"], ["a", "a", "b"], [])
  {
  }

  /**
   A line the Agent emitted twice, delivered once to each Target, is an
   exactly-once split, yet the overlap check fails on it: INTERSECT sees the
   line in both Targets.
   */
  lemma RepeatedLineTripsOverlap()
    ensures ExactlyOnce(["a", "a"], ["a"], ["a"])
    ensures Expected(["a", "a"], ["a"], ["a"]).overlap == QueryFail({"a"})
  {
    assert Elems(["a"]) == {"a"};
    assert {"a"} * {"a"} == {"a"};
  }

  /** Agent has 3 lines, Targets have 1 each: parity fails reporting 3 and 2. */
  lemma ParityExample()
    ensures Expected(["a", "b", "c"], ["a"], ["b"]).parity == ParityFail(3, 2)
  {
  }

  /** Target1 = {a, b}, Target2 = {b, c}: the overlap check reports exactly {b}. */
  lemma OverlapExample()
    ensures Expected(["a", "b", "c"], ["a", "b"], ["b", "c"]).overlap == QueryFail({"b"})
  {
    assert Elems(["a", "b"]) == {"a", "b"};
    assert Elems(["b", "c"]) == {"b", "c"};
    assert {"a", "b"} * {"b", "c"} == {"b"};
  }

  /** Agent = {a, b, c}, Targets = {a, b}: the coverage check reports exactly {c}. */
  lemma CoverageExample()
    ensures Expected(["a", "b", "c"], ["a"], ["b"]).coverage == QueryFail({"c"})
  {
    assert Elems(["a", "b", "c"]) - (Elems(["a"]) + Elems(["b"])) == {"c"} by {
      assert Elems(["a", "b", "c"]) == {"a", "b", "c"};
      assert Elems(["a"]) + Elems(["b"]) == {"a", "b"};
    }
  }

  /** Target1 = {a, x}, Agent = {a, b}: the spurious-data check reports exactly {x}. */
  lemma SpuriousExample()
    ensures Expected(["a", "b"], ["a", "x"], []).spurious == QueryFail({"x"})
  {
    assert Elems(["a", "b"]) == {"a", "b"};
    assert Elems(["a", "x"]) == {"a", "x"};
    assert Elems<string>([]) == {};
    assert ({"a", "x"} + {}) - {"a", "b"} == {"x"};
  }
}

=== FILE: seqs.dfy ===
/**
 Generic sequence helpers shared by the loader and the reconciliation checks:
 concatenating a sequence of sequences, the set of values a sequence holds,
 and what it means for a sequence to hold no value twice.
 */
module Seqs {

  function Min(a: int, b: int): int
  {
    if a <= b then a else b
  }

  /** Concatenation of all the parts, in order. */
  function Flatten<T>(parts: seq<seq<T>>): seq<T>
  {
    if |parts| == 0 then [] else parts[0] + Flatten(parts[1..])
  }

  /** The set of values that occur in `s` (SQL's DISTINCT over a column). */
  function Elems<T>(s: seq<T>): set<T>
  {
    set x | x in s
  }

  /** No value occurs twice in `s`. */
  predicate Distinct<T(==)>(s: seq<T>)
  {
    forall i, j :: 0 <= i < j < |s| ==> s[i] != s[j]
  }

  /**
   A sequence has at least as many entries as distinct values, and exactly
   as many precisely when no value repeats.
   */
  lemma {:induction false} ElemsCard<T>(s: seq<T>)
    ensures |Elems(s)| <= |s|
    ensures |Elems(s)| == |s| <==> Distinct(s)
  {
    if |s| == 0 {
      assert Elems(s) == {};
    } else {
      var t := s[1..];
      ElemsCard(t);
      assert s == [s[0]] + t;
      assert Elems(s) == {s[0]} + Elems(t);
      if s[0] in t {
        assert Elems(s) == Elems(t);
        var k :| 0 <= k < |t| && t[k] == s[0];
        assert s[0] == s[k + 1];
        assert !Distinct(s);
      } else {
        assert |Elems(s)| == |Elems(t)| + 1;
        if Distinct(t) {
          forall i, j | 0 <= i < j < |s|
            ensures s[i] != s[j]
          {
            if i == 0 {
              assert s[j] == t[j - 1];
            } else {
              assert s[i] == t[i - 1] && s[j] == t[j - 1];
            }
          }
        } else {
          var i, j :| 0 <= i < j < |t| && t[i] == t[j];
          assert s[i + 1] == s[j + 1];
        }
      }
    }
  }

  /** In a sequence without repeats every value occurs at most once. */
  lemma {:induction false} DistinctMultiplicity<T>(s: seq<T>, x: T)
    requires Distinct(s)
    ensures multiset(s)[x] == if x in s then 1 else 0
  {
    if |s| > 0 {
      var t := s[1..];
      assert s == [s[0]] + t;
      assert Distinct(t) by {
        forall i, j | 0 <= i < j < |t|
          ensures t[i] != t[j]
        {
          assert t[i] == s[i + 1] && t[j] == s[j + 1];
        }
      }
      DistinctMultiplicity(t, x);
      assert multiset(s) == multiset{s[0]} + multiset(t);
      assert s[0] !in t by {
        forall k | 0 <= k < |t|
          ensures t[k] != s[0]
        {
          assert t[k] == s[k + 1];
        }
      }
    }
  }
}

=== FILE: statement.dfy ===
/**
 One INSERT statement per chunk (`arrayToDb`): a `(?, ?)` group per record,
 joined by ", ", with the flattened `[source, data, source, data, ...]`
 parameter list bound to the markers in order. SQLite's side of the exchange
 is modelled only as far as the loader relies on it: the statement must
 have at least one `(?, ?)` group after `VALUES`, one parameter per `?`
 marker and at most SQLITE_MAX_VARIABLE_NUMBER markers, and then each
 `(?, ?)` group becomes one row.
 */
module Statement {
  import opened Events

  /** SQLite's SQLITE_MAX_VARIABLE_NUMBER (the default since SQLite 3.32). */
  const MaxVariableNumber: nat := 32766

  const Group: string := "(?, ?)"
  const Separator: string := ", "
  const InsertPrefix: string := "INSERT INTO events (source, data) VALUES "

  /** A stored row of the `events` table: the source name as text and the line. */
  datatype Row = Row(source: string, data: string)

  /**
   Why SQLite refuses an INSERT: more markers than it allows, an empty
   `VALUES` list (the statement text stops after `VALUES`), or parameters
   that do not match the markers.
   */
  datatype SqlError = TooManyVariables | Incomplete | ParameterMismatch

  datatype Result<T> = Success(value: T) | Failure(error: SqlError)

  /** The row a tagged event is stored as. */
  function ToRow(e: Event): Row
  {
    Row(SourceName(e.source), e.data)
  }

  function ToRows(events: seq<Event>): (r: seq<Row>)
    ensures |r| == |events|
  {
    if |events| == 0 then [] else [ToRow(events[0])] + ToRows(events[1..])
  }

  lemma {:induction false} ToRowsAppend(a: seq<Event>, b: seq<Event>)
    ensures ToRows(a + b) == ToRows(a) + ToRows(b)
  {
    if |a| == 0 {
      assert a + b == b;
    } else {
      assert (a + b)[1..] == a[1..] + b;
      ToRowsAppend(a[1..], b);
    }
  }

  /** JavaScript's `Array.prototype.join(sep)` on strings. */
  function Join(parts: seq<string>, sep: string): string
  {
    if |parts| == 0 then ""
    else if |parts| == 1 then parts[0]
    else parts[0] + sep + Join(parts[1..], sep)
  }

  /** `arr.map(() => "(?, ?)")`: one group per record. */
  function Groups(chunk: seq<Event>): (r: seq<string>)
    ensures |r| == |chunk|
    ensures forall i :: 0 <= i < |r| ==> r[i] == Group
  {
    if |chunk| == 0 then [] else [Group] + Groups(chunk[1..])
  }

  /** `arr.map(() => "(?, ?)").join(', ')`. */
  function Placeholders(chunk: seq<Event>): string
  {
    Join(Groups(chunk), Separator)
  }

  /** The text of the INSERT statement for a chunk. */
  function InsertStatement(chunk: seq<Event>): string
  {
    InsertPrefix + Placeholders(chunk)
  }

  /** Number of occurrences of `c` in `s`. */
  function Occurrences(s: string, c: char): nat
  {
    if |s| == 0 then 0 else (if s[0] == c then 1 else 0) + Occurrences(s[1..], c)
  }

  /** `arr.flat()` on an array of `[source, data]` pairs. */
  function Params(chunk: seq<Event>): seq<string>
  {
    if |chunk| == 0 then []
    else [SourceName(chunk[0].source), chunk[0].data] + Params(chunk[1..])
  }

  /**
   Executing an INSERT: the statement is refused when it has more markers
   than SQLite allows, when it has none (no group follows `VALUES`), or when
   its parameter count does not match its markers; otherwise consecutive
   parameter pairs become the inserted rows.
   */
  function Execute(stmt: string, params: seq<string>): Result<seq<Row>>
  {
    var markers := Occurrences(stmt, '?');
    if markers > MaxVariableNumber then Failure(TooManyVariables)
    else if markers == 0 then Failure(Incomplete)
    else if markers != |params| || |params| % 2 != 0 then Failure(ParameterMismatch)
    else Success(Pairs(params))
  }

  /** Binding parameters to `(?, ?)` groups in order: each consecutive pair is one row. */
  function Pairs(params: seq<string>): seq<Row>
    requires |params| % 2 == 0
  {
    if |params| == 0 then [] else [Row(params[0], params[1])] + Pairs(params[2..])
  }

  /** `arrayToDb(chunk)`: the statement for the chunk, executed with its flattened records. */
  function InsertChunk(chunk: seq<Event>): Result<seq<Row>>
  {
    Execute(InsertStatement(chunk), Params(chunk))
  }

  /**
   The flattened parameter list alternates source and data: entry `2i` is
   record `i`'s source name and entry `2i + 1` its line.
   */
  lemma {:induction false} ParamsLayout(chunk: seq<Event>)
    ensures |Params(chunk)| == 2 * |chunk|
    ensures forall i :: 0 <= i < |chunk| ==>
      Params(chunk)[2 * i] == SourceName(chunk[i].source) && Params(chunk)[2 * i + 1] == chunk[i].data
  {
    if |chunk| > 0 {
      ParamsLayout(chunk[1..]);
      var p := Params(chunk);
      var rest := Params(chunk[1..]);
      assert p == [SourceName(chunk[0].source), chunk[0].data] + rest;
      forall i | 0 <= i < |chunk|
        ensures p[2 * i] == SourceName(chunk[i].source) && p[2 * i + 1] == chunk[i].data
      {
        if i > 0 {
          assert p[2 * i] == rest[2 * (i - 1)];
          assert p[2 * i + 1] == rest[2 * (i - 1) + 1];
          assert chunk[i] == chunk[1..][i - 1];
        }
      }
    }
  }

  /** Binding the flattened records back into rows recovers exactly the chunk's rows. */
  lemma {:induction false} PairsParams(chunk: seq<Event>)
    ensures |Params(chunk)| % 2 == 0
    ensures Pairs(Params(chunk)) == ToRows(chunk)
  {
    if |chunk| > 0 {
      PairsParams(chunk[1..]);
      var p := Params(chunk);
      assert p[2..] == Params(chunk[1..]);
    }
  }

  lemma GroupOccurrences()
    ensures Occurrences(Group, '?') == 2 && Occurrences(Group, '(') == 1
  {
  }

  lemma SeparatorOccurrences()
    ensures Occurrences(Separator, '?') == 0 && Occurrences(Separator, '(') == 0
  {
  }

  lemma {:induction false} Absent(s: string, c: char)
    requires c !in s
    ensures Occurrences(s, c) == 0
  {
    if |s| > 0 {
      assert s[0] != c;
      assert c !in s[1..];
      Absent(s[1..], c);
    }
  }

  lemma PrefixOccurrences()
    ensures Occurrences(InsertPrefix, '?') == 0
  {
    assert forall i :: 0 <= i < |InsertPrefix| ==> InsertPrefix[i] != '?';
    Absent(InsertPrefix, '?');
  }

  /** Joining parts that each hold `per` copies of `c`, with a separator holding none. */
  lemma {:induction false} JoinOccurrences(parts: seq<string>, sep: string, c: char, per: nat)
    requires Occurrences(sep, c) == 0
    requires forall i :: 0 <= i < |parts| ==> Occurrences(parts[i], c) == per
    ensures Occurrences(Join(parts, sep), c) == per * |parts|
  {
    if |parts| == 1 {
      assert Join(parts, sep) == parts[0];
    } else if |parts| > 1 {
      var rest := parts[1..];
      JoinOccurrences(rest, sep, c, per);
      OccurrencesAppend(parts[0], sep, c);
      OccurrencesAppend(parts[0] + sep, Join(rest, sep), c);
      assert per * |parts| == per + per * |rest|;
    }
  }

  lemma {:induction false} OccurrencesAppend(a: string, b: string, c: char)
    ensures Occurrences(a + b, c) == Occurrences(a, c) + Occurrences(b, c)
  {
    if |a| > 0 {
      assert (a + b)[1..] == a[1..] + b;
      OccurrencesAppend(a[1..], b, c);
    } else {
      assert a + b == b;
    }
  }

  /**
   The placeholder list for a chunk of `k` records has exactly `k` `(?, ?)`
   groups and so `2k` parameter markers, one for each entry of the flattened
   list.
   */
  lemma {:induction false} PlaceholderMarkers(chunk: seq<Event>)
    ensures Occurrences(Placeholders(chunk), '?') == 2 * |chunk|
    ensures Occurrences(Placeholders(chunk), '(') == |chunk|
  {
    GroupOccurrences();
    SeparatorOccurrences();
    var groups := Groups(chunk);
    forall i | 0 <= i < |groups|
      ensures Occurrences(groups[i], '?') == 2 && Occurrences(groups[i], '(') == 1
    {
      assert groups[i] == Group;
    }
    JoinOccurrences(groups, Separator, '?', 2);
    JoinOccurrences(groups, Separator, '(', 1);
  }

  /** The statement around the placeholder list adds no markers. */
  lemma {:induction false} StatementMarkers(chunk: seq<Event>)
    ensures Occurrences(InsertStatement(chunk), '?') == 2 * |chunk|
  {
    PrefixOccurrences();
    PlaceholderMarkers(chunk);
    OccurrencesAppend(InsertPrefix, Placeholders(chunk), '?');
  }

  /**
   A chunk of 1 to 16383 records binds at most 32766 parameters and is
   stored as exactly its own rows, in order.
   */
  lemma {:induction false} InsertChunkRows(chunk: seq<Event>)
    requires 1 <= |chunk| && 2 * |chunk| <= MaxVariableNumber
    ensures |Params(chunk)| <= MaxVariableNumber
    ensures InsertChunk(chunk) == Success(ToRows(chunk))
  {
    ParamsLayout(chunk);
    StatementMarkers(chunk);
    PairsParams(chunk);
  }

  /** One record more than 16383 and SQLite refuses the statement. */
  lemma {:induction false} InsertChunkTooLarge(chunk: seq<Event>)
    requires 2 * |chunk| > MaxVariableNumber
    ensures InsertChunk(chunk) == Failure(TooManyVariables)
  {
    StatementMarkers(chunk);
  }

  /** An empty chunk gives `INSERT ... VALUES ` with nothing after it, which SQLite refuses. */
  lemma {:induction false} InsertChunkEmpty()
    ensures InsertChunk([]) == Failure(Incomplete)
  {
    assert Occurrences(InsertStatement([]), '?') == 0 by {
      assert InsertStatement([]) == InsertPrefix;
      PrefixOccurrences();
    }
  }
}

=== FILE: store.dfy ===
/**
 The bulk load into the `events` table: the chunks are inserted one after
 another, each as its own statement, into a table that starts empty. The
 table is modelled as the sequence of rows inserted so far.
 */
module Store {
  import opened Seqs
  import opened Events
  import opened Chunking
  import opened Statement

  /** A chunk whose statement SQLite refused, and why. */
  datatype LoadError = LoadError(chunkIndex: nat, cause: SqlError)

  /**
   The table after the load, and the chunks whose statements were refused.
   `arrayToDb` never sees a refused INSERT: its promise resolves and the
   loop goes on with the next slice, so a refused chunk leaves no rows and
   the load carries on. The refusal itself escapes as an uncaught error,
   which fails the hook running the load; that is not modelled.
   */
  datatype LoadResult = LoadResult(table: seq<Row>, refused: seq<LoadError>)

  /** Inserting `chunks` in order into a table holding `table`; `index` numbers the first of them. */
  function LoadFrom(table: seq<Row>, chunks: seq<seq<Event>>, index: nat): LoadResult
    decreases |chunks|
  {
    if |chunks| == 0 then LoadResult(table, [])
    else match InsertChunk(chunks[0])
      case Failure(e) =>
        var rest := LoadFrom(table, chunks[1..], index + 1);
        LoadResult(rest.table, [LoadError(index, e)] + rest.refused)
      case Success(rows) => LoadFrom(table + rows, chunks[1..], index + 1)
  }

  /** A chunk SQLite accepts: it has a record, and binds no more than SQLITE_MAX_VARIABLE_NUMBER parameters. */
  predicate Fits(chunk: seq<Event>)
  {
    1 <= |chunk| && 2 * |chunk| <= MaxVariableNumber
  }

  /** Why SQLite refuses a chunk that does not fit. */
  function Refusal(chunk: seq<Event>): SqlError
  {
    if |chunk| == 0 then Incomplete else TooManyVariables
  }

  /** A chunk is accepted with its own rows when it fits, and refused for `Refusal(chunk)` when it does not. */
  lemma {:induction false} InsertChunkOutcome(chunk: seq<Event>)
    ensures Fits(chunk) ==> InsertChunk(chunk) == Success(ToRows(chunk))
    ensures !Fits(chunk) ==> InsertChunk(chunk) == Failure(Refusal(chunk))
  {
    if |chunk| == 0 {
      InsertChunkEmpty();
    } else if Fits(chunk) {
      InsertChunkRows(chunk);
    } else {
      InsertChunkTooLarge(chunk);
    }
  }

  /** The inner `before` hook: combine the arrays, cut them into chunks of `b`, insert each. */
  function BulkLoad(agent: seq<Event>, target1: seq<Event>, target2: seq<Event>, b: nat): LoadResult
    requires b >= 1
  {
    LoadFrom([], Chunks(Combine(agent, target1, target2), b), 0)
  }

  /** The chunks SQLite accepts, in their original order. */
  function Fitting(chunks: seq<seq<Event>>): seq<seq<Event>>
  {
    if |chunks| == 0 then []
    else if Fits(chunks[0]) then [chunks[0]] + Fitting(chunks[1..])
    else Fitting(chunks[1..])
  }

  /** One step of the load: a fitting chunk adds its rows, any other chunk is recorded as refused. */
  lemma {:induction false} LoadStep(table: seq<Row>, chunks: seq<seq<Event>>, index: nat)
    requires |chunks| > 0
    ensures Fits(chunks[0]) ==>
      LoadFrom(table, chunks, index) == LoadFrom(table + ToRows(chunks[0]), chunks[1..], index + 1)
    ensures !Fits(chunks[0]) ==>
      LoadFrom(table, chunks, index).table == LoadFrom(table, chunks[1..], index + 1).table &&
      LoadFrom(table, chunks, index).refused
        == [LoadError(index, Refusal(chunks[0]))] + LoadFrom(table, chunks[1..], index + 1).refused
  {
    InsertChunkOutcome(chunks[0]);
  }

  /** Every entry of `refused` names one of `chunks` (numbered from `index`) with that chunk's refusal. */
  predicate RefusedWithin(chunks: seq<seq<Event>>, index: nat, refused: seq<LoadError>)
  {
    forall e :: e in refused ==>
      index <= e.chunkIndex < index + |chunks| && e.cause == Refusal(chunks[e.chunkIndex - index])
  }

  /** `refused` names chunk `k` (numbered from `index`) exactly when it does not fit. */
  predicate RefusedExactly(chunks: seq<seq<Event>>, index: nat, refused: seq<LoadError>)
  {
    forall k :: 0 <= k < |chunks| ==>
      (!Fits(chunks[k]) <==> LoadError(index + k, Refusal(chunks[k])) in refused)
  }

  /**
   The load keeps going past refused chunks: the table ends with the rows
   of exactly the chunks that fit, in order, after what it held, and chunk
   `k` is reported refused, with its cause, exactly when it does not fit.
   */
  lemma {:induction false} LoadSkipsMisfits(table: seq<Row>, chunks: seq<seq<Event>>, index: nat)
    ensures LoadFrom(table, chunks, index).table == table + ToRows(Flatten(Fitting(chunks)))
    ensures forall e :: e in LoadFrom(table, chunks, index).refused ==>
      index <= e.chunkIndex < index + |chunks| && e.cause == Refusal(chunks[e.chunkIndex - index])
    ensures forall k :: 0 <= k < |chunks| ==>
      (!Fits(chunks[k]) <==> LoadError(index + k, Refusal(chunks[k])) in LoadFrom(table, chunks, index).refused)
  {
    LoadKeepsFitting(table, chunks, index);
    LoadRefused(table, chunks, index);
  }

  lemma {:induction false} LoadKeepsFitting(table: seq<Row>, chunks: seq<seq<Event>>, index: nat)
    ensures LoadFrom(table, chunks, index).table == table + ToRows(Flatten(Fitting(chunks)))
    decreases |chunks|
  {
    if |chunks| == 0 {
      assert table + ToRows([]) == table;
    } else {
      var tail := chunks[1..];
      LoadStep(table, chunks, index);
      if Fits(chunks[0]) {
        LoadKeepsFitting(table + ToRows(chunks[0]), tail, index + 1);
        ToRowsAppend(chunks[0], Flatten(Fitting(tail)));
        assert table + ToRows(chunks[0]) + ToRows(Flatten(Fitting(tail)))
            == table + ToRows(Flatten(Fitting(chunks)));
      } else {
        LoadKeepsFitting(table, tail, index + 1);
      }
    }
  }

  lemma {:induction false} LoadRefused(table: seq<Row>, chunks: seq<seq<Event>>, index: nat)
    ensures RefusedWithin(chunks, index, LoadFrom(table, chunks, index).refused)
    ensures RefusedExactly(chunks, index, LoadFrom(table, chunks, index).refused)
    decreases |chunks|
  {
    if |chunks| > 0 {
      var refused := LoadFrom(table, chunks, index).refused;
      LoadStep(table, chunks, index);
      var next := table;
      if Fits(chunks[0]) {
        next := table + ToRows(chunks[0]);
      }
      LoadRefused(next, chunks[1..], index + 1);
      RefusedPrepend(chunks, index, refused, LoadFrom(next, chunks[1..], index + 1).refused);
    }
  }

  /**
   The refusal record of a load is the first chunk's refusal, if any, in
   front of the record for the rest; it names chunk `k` exactly when the
   record for the rest names chunk `k - 1` of the rest.
   */
  lemma {:induction false} RefusedPrepend(chunks: seq<seq<Event>>, index: nat, refused: seq<LoadError>, rest: seq<LoadError>)
    requires |chunks| > 0
    requires RefusedWithin(chunks[1..], index + 1, rest)
    requires RefusedExactly(chunks[1..], index + 1, rest)
    requires Fits(chunks[0]) ==> refused == rest
    requires !Fits(chunks[0]) ==> refused == [LoadError(index, Refusal(chunks[0]))] + rest
    ensures RefusedWithin(chunks, index, refused)
    ensures RefusedExactly(chunks, index, refused)
  {
    var tail := chunks[1..];
    forall e | e in rest
      ensures e.cause == Refusal(chunks[e.chunkIndex - index])
    {
      assert chunks[e.chunkIndex - index] == tail[e.chunkIndex - (index + 1)];
    }
    forall k | 0 <= k < |chunks|
      ensures !Fits(chunks[k]) <==> LoadError(index + k, Refusal(chunks[k])) in refused
    {
      if k > 0 {
        assert chunks[k] == tail[k - 1];
        var err := LoadError(index + k, Refusal(chunks[k]));
        assert !Fits(tail[k - 1]) <==> LoadError(index + 1 + (k - 1), Refusal(tail[k - 1])) in rest;
        assert err in refused <==> err in rest;
      }
    }
  }

  /** When every chunk fits, nothing is refused and the table ends with the rows of all chunks, in order. */
  lemma {:induction false} LoadAllFit(table: seq<Row>, chunks: seq<seq<Event>>, index: nat)
    requires forall j :: 0 <= j < |chunks| ==> Fits(chunks[j])
    ensures LoadFrom(table, chunks, index) == LoadResult(table + ToRows(Flatten(chunks)), [])
    decreases |chunks|
  {
    if |chunks| == 0 {
      assert table + ToRows([]) == table;
    } else {
      InsertChunkOutcome(chunks[0]);
      LoadAllFit(table + ToRows(chunks[0]), chunks[1..], index + 1);
      ToRowsAppend(chunks[0], Flatten(chunks[1..]));
      assert table + ToRows(chunks[0]) + ToRows(Flatten(chunks[1..])) == table + ToRows(Flatten(chunks));
    }
  }

  /**
   Two slices, the first too large: the first is refused, and the second's
   row is still committed.
   */
  lemma {:induction false} LaterChunkCommittedAfterRefusal(big: seq<Event>, e: Event)
    requires |big| == ChunkSize + 1
    ensures LoadFrom([], [big, [e]], 0) == LoadResult([ToRow(e)], [LoadError(0, TooManyVariables)])
  {
    InsertChunkTooLarge(big);
    InsertChunkRows([e]);
    assert [big, [e]][1..] == [[e]];
    assert ToRows([e]) == [ToRow(e)];
    assert [[e]][1..] == [];
    assert LoadFrom([], [[e]], 1) == LoadFrom([] + [ToRow(e)], [], 2);
  }

  /**
   For any chunk size from 1 to 16383 the bulk load succeeds and the table
   holds exactly Target2 ++ Agent ++ Target1, so what is stored does not
   depend on the chunk size; it takes ceil(N / b) statements.
   */
  lemma {:induction false} BulkLoadStore(agent: seq<Event>, target1: seq<Event>, target2: seq<Event>, b: nat)
    requires 1 <= b <= ChunkSize
    ensures BulkLoad(agent, target1, target2, b) == LoadResult(ToRows(target2 + agent + target1), [])
    ensures |Chunks(Combine(agent, target1, target2), b)| == CeilDiv(|agent| + |target1| + |target2|, b)
  {
    var all := Combine(agent, target1, target2);
    var chunks := Chunks(all, b);
    ChunksBounded(all, b);
    ChunksPartition(all, b);
    ChunksCount(all, b);
    LoadAllFit([], chunks, 0);
    assert [] + ToRows(all) == ToRows(all);
  }

  /**
   The 16383 limit is the largest that works: with any larger chunk size,
   a load of more than 16383 records has its first statement refused, and
   the table holds only the rows of the chunks that fit, so none of the
   first chunk's records reach it.
   */
  lemma {:induction false} BulkLoadOverLimit(agent: seq<Event>, target1: seq<Event>, target2: seq<Event>, b: nat)
    requires b > ChunkSize
    requires |agent| + |target1| + |target2| > ChunkSize
    ensures InsertChunk(Chunks(Combine(agent, target1, target2), b)[0]) == Failure(TooManyVariables)
    ensures LoadError(0, TooManyVariables) in BulkLoad(agent, target1, target2, b).refused
    ensures BulkLoad(agent, target1, target2, b).table
         == ToRows(Flatten(Fitting(Chunks(Combine(agent, target1, target2), b))))
  {
    var all := Combine(agent, target1, target2);
    var chunks := Chunks(all, b);
    assert |chunks[0]| == Min(b, |all|);
    InsertChunkTooLarge(chunks[0]);
    LoadSkipsMisfits([], chunks, 0);
    assert [] + ToRows(Flatten(Fitting(chunks))) == ToRows(Flatten(Fitting(chunks)));
  }
}
